=== FILE: README.md ===
# macrocycle: macro preview and cycle-directory parsing

This project models two small, pure parts of the macrocycle workflow runner,
and proves properties of them in Dafny.

- **Macro preview** (`preview_macro`, `_render_preview_prompt`). A macro is
  an ordered list of LLM steps and gate steps. Its preview has one entry per
  step, numbered from 1. An LLM step shows its prompt template rendered in two
  passes. First, every `{{INPUT}}` is replaced by the sample input, or by
  `[← your input will appear here]` when the input is absent or empty. Then
  every back-reference `{{STEP_OUTPUT:<id>}}` with a word id becomes
  `[← output from: <id>]`. A gate step shows its message verbatim. The
  preview header copies the macro's name, engine and
  `include_previous_outputs` flag.
- **Cycle directory parser** (`CycleDirParser.parse`). A cycle directory is
  named like `2025-01-15_14-32-01_fix_abc123`. The parser splits the name on
  `_`. The first two fields, rejoined with `_`, are the timestamp. The third
  field is the macro id, or `unknown` when there is none. The number of `.md`
  files under `steps/` is the step count.

Files:

- `wrappers.dfy`: `Option` and `Result`.
- `seq_facts.dfy`: small concatenation and slicing facts that the larger proofs call as lemmas.
- `text.dfy`: the Python string operations the two parts rely on. These are
  `str.replace` (`ReplaceAll`), `str.split` (`Split`), `str.join` (`Join`),
  and the position of a character's first occurrence (`FirstIndex`).
- `macro.dfy`: the macro and its steps.
- `preview_macro.dfy`: the preview.
- `cycle_dir_parser.dfy`: the parser.

`Parse` follows the source: it splits on `_` and picks fields by number. A
second, position-based definition locates the separators directly:
`TimestampField` and `MacroIdField`. `FieldsAgree` proves the two agree, and
the properties of the parser are stated through the position-based one.

## Model

| member | source | states |
|---|---|---|
| Preview.PreviewMacro | src/macros/application/usecases/preview_macro.py:16-39 | The name and engine are copied from the macro. `includePreviousContext` is the macro's `include_previous_outputs`. There is exactly one entry per step, in macro order. Entry k has index k+1 and step k's id. An LLM entry has type `llm` and the rendered prompt as content. A gate entry has type `gate` and the message verbatim. |
| Preview.PreviewSteps | src/macros/application/usecases/preview_macro.py:17-32 | There is one entry per step, in order, numbered consecutively from the given start. Each entry describes its step as above. |
| Preview.PreviewStep | src/macros/application/usecases/preview_macro.py:18-32 | No contract of its own; `PreviewSteps` and `PreviewMacro` prove that each entry it builds satisfies `Describes`. |
| Preview.RenderPreviewPrompt | src/macros/application/usecases/preview_macro.py:42-57 | No contract of its own; characterised by `RenderSubstitutesInput`, `RenderWithoutInputLeavesNoToken`, `RenderWithoutTokensIsIdentity`, `InputPassRunsFirst` and `RefInsideInputIsRewritten`. |
| Preview.InputStandIn | src/macros/application/usecases/preview_macro.py:46-49 | No contract of its own; it is the sample input when that is present and non-empty (Python truthiness), otherwise the placeholder, as used by `RenderSubstitutesInput`. |
| Preview.RewriteRefs | src/macros/application/usecases/preview_macro.py:55 | No contract of its own; characterised by `RefRewritten`, `RefRewrittenAnywhere`, `MalformedRefUnchanged`, `MalformedRefUnchangedAnywhere`, `BraceFreePrefixUnchanged`, `NoRefsUnchanged` and `RewriteCreatesNoInputToken`. |
| Preview.WordRun | src/macros/application/usecases/preview_macro.py:55 | Greedy `\w`: the longest prefix made only of word characters. Every character in it is a word character, and the next one is not. |
| Preview.RefAt | src/macros/application/usecases/preview_macro.py:55 | A match found at the start of the text is exactly `{{STEP_OUTPUT:` + id + `}}`, with a non-empty word id. The reported length spans exactly that token. |
| Preview.WellFormedRefRecognised | src/macros/application/usecases/preview_macro.py:55 | A token with a non-empty word id is always matched, whatever follows it. |
| Preview.RefRewritten | src/macros/application/usecases/preview_macro.py:51-55 | Any token with a word id becomes `[← output from: id]`. Nothing checks that the id names a step. The text after the token is rewritten on its own. |
| Preview.RefRewrittenAnywhere | src/macros/application/usecases/preview_macro.py:51-55 | A token with a word id becomes `[← output from: id]` wherever it stands, also after a stray `{` such as a JSON brace. The text before it is rewritten as it would be on its own, because no match there reaches into the token. The text after it is rewritten on its own. |
| Preview.MalformedRefNotRecognised | src/macros/application/usecases/preview_macro.py:55 | A token whose id is empty or holds a non-word character, and holds no closing brace, is not matched. |
| Preview.MalformedRefUnchanged | src/macros/application/usecases/preview_macro.py:55 | A token at the start of the text whose id is empty or holds a non-word character (and no brace) is left exactly as written, and the text after it is rewritten on its own. |
| Preview.MalformedRefUnchangedAnywhere | src/macros/application/usecases/preview_macro.py:55 | A token whose id is empty or holds a non-word character (and no brace) is left exactly as written wherever it stands, also after a stray `{` such as a JSON brace. The text before it and the text after it are each rewritten as on their own. |
| Preview.BraceFreePrefixUnchanged | src/macros/application/usecases/preview_macro.py:55 | Text without `{` in front of the rest passes through the reference pass unchanged. |
| Preview.NoRefsUnchanged | src/macros/application/usecases/preview_macro.py:55 | Text in which no back-reference starts anywhere is returned unchanged by the reference pass. |
| Preview.RewriteCreatesNoInputToken | src/macros/application/usecases/preview_macro.py:55 | Text without `{{INPUT}}` still has none after the reference pass. |
| Preview.RenderSubstitutesInput | src/macros/application/usecases/preview_macro.py:44-49 | The template is the join, with `{{INPUT}}`, of its split on `{{INPUT}}`, and no piece of that split holds `{{INPUT}}`. With a non-empty input, the input pass joins those same pieces with the input instead, so each non-overlapping `{{INPUT}}`, scanned left to right, becomes the input. With no input or an empty one, each becomes the placeholder. The reference pass then runs over the result. |
| Preview.RenderWithoutInputLeavesNoToken | src/macros/application/usecases/preview_macro.py:46-55 | With no input or an empty one, no `{{INPUT}}` survives rendering. |
| Preview.RenderWithoutTokensIsIdentity | src/macros/application/usecases/preview_macro.py:42-57 | A template with no input token and no back-reference renders as itself, whatever the input. |
| Preview.InputPassRunsFirst | src/macros/application/usecases/preview_macro.py:44-57 | The input pass runs before the reference pass: a template that is just `{{INPUT}}` renders as the reference pass applied to the input. |
| Preview.RefInsideInputIsRewritten | src/macros/application/usecases/preview_macro.py:44-55 | A back-reference supplied inside the sample input is itself shown as the output marker. |
| Text.ReplaceAll | src/macros/application/usecases/preview_macro.py:47-49 | No contract of its own; `str.replace`, characterised by `ReplaceIsJoinOfSplit` (with `SplitPiecesAvoidPattern` and `JoinSplit`), `ReplaceWithoutOccurrence` and `ReplaceLeavesNoPattern`. |
| Text.ReplaceIsJoinOfSplit | src/macros/application/usecases/preview_macro.py:47-49 | `s.replace(p, r) == r.join(s.split(p))`: left-to-right, non-overlapping replacement agrees with splitting and joining. |
| Text.ReplaceWithoutOccurrence | src/macros/application/usecases/preview_macro.py:47-49 | A string without the pattern is returned unchanged by `replace`. |
| Text.ReplaceLeavesNoPattern | src/macros/application/usecases/preview_macro.py:49 | A non-empty replacement that does not start with a pattern character, and does not contain the pattern's first character, leaves no occurrence of the pattern. |
| Text.Split | src/macros/infrastructure/persistence/mappers/cycle_dir_parser.py:17 | `str.split` always yields at least one piece. |
| Text.PrefixOfSplit | src/macros/application/usecases/preview_macro.py:47-49 | The first piece of a split is a prefix of the string. |
| Text.SplitPiecesAvoidPattern | src/macros/application/usecases/preview_macro.py:47-49 | No piece of a split on any non-empty separator contains that separator. |
| Text.JoinSplit | src/macros/infrastructure/persistence/mappers/cycle_dir_parser.py:17 | Joining the pieces of a split with the same separator gives back the string. |
| Text.SplitJoin | src/macros/infrastructure/persistence/mappers/cycle_dir_parser.py:17 | Splitting on a character undoes joining with it, when no piece holds that character. |
| Text.SplitAtFirstIndex | src/macros/infrastructure/persistence/mappers/cycle_dir_parser.py:17 | The first piece of a split on one character ends at that character's first occurrence. The remaining pieces are the split of what follows. |
| Text.SplitPiecesAvoidSeparator | src/macros/infrastructure/persistence/mappers/cycle_dir_parser.py:17 | No piece of a split on one character contains that character. |
| Text.FirstIndexSpec | src/macros/infrastructure/persistence/mappers/cycle_dir_parser.py:17 | The character does not occur before its first index, and does occur at it unless that is the end. |
| CycleDirParser.PathName | src/macros/infrastructure/persistence/mappers/cycle_dir_parser.py:16 | `Path.name` holds no `/`, ends the path, and is either the whole path or preceded by `/`. |
| CycleDirParser.PathNameOfChild | src/macros/infrastructure/persistence/mappers/cycle_dir_parser.py:16 | The name of `parent/child` is `child`. |
| CycleDirParser.TimestampFieldShape | src/macros/infrastructure/persistence/mappers/cycle_dir_parser.py:17-19 | The timestamp exists exactly when the name holds a `_`. It is then a prefix of the name with exactly one `_`, and it ends at the end of the name or at the next `_`. |
| CycleDirParser.MacroIdFieldShape | src/macros/infrastructure/persistence/mappers/cycle_dir_parser.py:21 | The macro id holds no `_`. When a second `_` follows the timestamp, the id is the text after it, up to the end or the next `_`. Otherwise the id is `unknown`. |
| CycleDirParser.FieldsAgree | src/macros/infrastructure/persistence/mappers/cycle_dir_parser.py:17-21 | Taking `parts[0]_parts[1]` and `parts[2]` (or `unknown`) from the split name gives the same timestamp and macro id as locating the separators. There are fewer than two parts exactly when no timestamp exists. |
| CycleDirParser.IsMarkdown | src/macros/infrastructure/persistence/mappers/cycle_dir_parser.py:24 | No contract of its own; a name matches `*.md` when it ends in `.md`, matched case-sensitively. |
| CycleDirParser.CountMarkdown | src/macros/infrastructure/persistence/mappers/cycle_dir_parser.py:24 | The count is at most the number of entries. It equals that number exactly when every entry matches `*.md`, and is 0 exactly when none does. |
| CycleDirParser.CountMarkdownAppend | src/macros/infrastructure/persistence/mappers/cycle_dir_parser.py:24 | Counting a listing in two parts gives the sum of the two counts. |
| CycleDirParser.StepCount | src/macros/infrastructure/persistence/mappers/cycle_dir_parser.py:23-24 | No contract of its own; 0 when `steps/` is missing, otherwise `CountMarkdown` of its listing, whose contract bounds and characterises the count. |
| CycleDirParser.Parse | src/macros/infrastructure/persistence/mappers/cycle_dir_parser.py:16-32 | It fails with `MissingTimeField` exactly when the directory name has no `_`. Otherwise, if the timestamp does not parse, it fails with `BadTimestamp` of that text. If the timestamp parses, the result has the name as cycle id, the macro id field, the parsed time, the full path string as the directory, and the step count. That count is 0 when `steps/` is missing. |
| CycleDirParser.FieldsOfThreeFieldName | src/macros/infrastructure/persistence/mappers/cycle_dir_parser.py:17-21 | For `date_time_macro<tail>`, where no field holds `_` and the tail is empty or starts with `_`: the timestamp is `date_time` and the macro id is `macro`. A suffix never reaches the macro id. |
| CycleDirParser.MacroIdWithSeparatorIsCut | src/macros/infrastructure/persistence/mappers/cycle_dir_parser.py:17-21 | A macro id that itself holds `_` is reported only up to its first `_`, so it differs from the real id. |
| CycleDirParser.FieldsOfTwoFieldName | src/macros/infrastructure/persistence/mappers/cycle_dir_parser.py:17-21 | For `date_time`, the timestamp is the whole name and the macro id is `unknown`. |
| CycleDirParser.ParseThreeFieldChild | src/macros/infrastructure/persistence/mappers/cycle_dir_parser.py:16-32 | Parsing `parent/date_time_macro<tail>` reports the name as cycle id, `date_time` as the timestamp handed to the date parser, and `macro` as macro id. |
| CycleDirParser.DocumentedExample | src/macros/infrastructure/persistence/mappers/cycle_dir_parser.py:14-21 | `2025-01-15_14-32-01_fix_abc123` has timestamp `2025-01-15_14-32-01` and macro id `fix`. Parsing it succeeds exactly when that timestamp parses. |

## Left out

- The macro lookup `container.macro_registry.load_macro` reads files. The preview is modelled over a given `Macro` value.
- `datetime.strptime` with format `%Y-%m-%d_%H-%M-%S` is library date parsing. `Parse` takes it as a parameter, a partial function from the timestamp text to a date and time. The `ValueError` it raises is the `BadTimestamp` failure.
- The `steps/` existence check and the `*.md` glob are filesystem I/O. `Parse` takes the listing of `steps/` as an input, `None` when the directory does not exist. A name matches `*.md` when it ends in `.md`.
- CycleDirParser.IsMarkdown: `*.md` is matched case-sensitively, as pathlib's `glob` does on POSIX systems. On Windows, `glob` matches case-insensitively and would also count names such as `01-X.MD`; the model does not.
- Python's `IndexError` on `parts[1]` is modelled as the `MissingTimeField` failure, not as an exception.
- Preview.IsWordChar: `\w` is approximated by ASCII letters, digits and `_`. Python's Unicode-aware `\w` also matches non-ASCII letters and digits, so a back-reference whose id holds them is rewritten by the source but left unchanged by the model.
- CycleDirParser.PathName: the path is taken as an already normalised string. pathlib's handling of trailing slashes, `.` and the root is not modelled.
- Steps of a type other than LLM or gate cannot occur in the model: the step type has exactly those two variants, as in the domain model.
- The cycle orchestrator, template renderer, prompt builder and macro validator are outside the two components modelled here: the macro preview and the cycle-directory parser.
- The JSON macro mapper, the command-line interface, the terminal UI, the storage ports and the test fakes are not part of this model. They are I/O, presentation or declarations without logic.

=== FILE: cycle_dir_parser.dfy ===
/** Reading a cycle's summary back from its directory. A cycle directory is
    named `<date>_<time>_<macro id>_<suffix>`, for example
    `2025-01-15_14-32-01_fix_abc123`, and holds one `.md` file per executed
    LLM step under `steps/`. */
module CycleDirParser {
  import opened Wrappers
  import opened Text
  import opened SeqFacts

  const FieldSeparator: char := '_'
  const PathSeparator: char := '/'
  /** The macro id reported when the name has no third field. */
  const UnknownMacroId: string := "unknown"
  const MarkdownSuffix: string := ".md"

  /** A calendar date and time of day, as produced by parsing the
      timestamp with the format `%Y-%m-%d_%H-%M-%S`. */
  datatype DateTime = DateTime(year: int, month: int, day: int, hour: int, minute: int, second: int)

  /** The summary of one cycle. */
  datatype CycleInfo = CycleInfo(
    cycleId: string,
    macroId: string,
    startedAt: DateTime,
    cycleDir: string,
    stepCount: nat
  )

  /** Why a directory name could not be read: it has no second field (the
      lookup of `parts[1]` fails), or its timestamp does not parse. */
  datatype ParseError = MissingTimeField | BadTimestamp(text: string)

  // ---------------------------------------------------------------------
  // The directory's own name

  /** The last piece of a split on `/` holds no `/`, ends the path, and is
      the whole path or follows a `/`. */
  lemma LastSegmentShape(path: string)
    ensures var segments := Split(path, [PathSeparator]);
      var name := segments[|segments| - 1];
      && PathSeparator !in name
      && EndsWith(path, name)
      && (|name| == |path| || path[|path| - |name| - 1] == PathSeparator)
  {
    var segments := Split(path, [PathSeparator]);
    var name := segments[|segments| - 1];
    SplitPiecesAvoidSeparator(path, PathSeparator);
    JoinSplit(path, [PathSeparator]);
    if |segments| >= 2 {
      JoinLast(segments, [PathSeparator]);
      var front := Join(segments[..|segments| - 1], [PathSeparator]);
      assert path == front + [PathSeparator] + name;
      assert path[|path| - |name|..] == name;
      assert path[|path| - |name| - 1] == PathSeparator;
    } else {
      assert path == name;
    }
  }

  /** The final component of a path (`Path.name`): the text after the last
      `/`, which is the whole path when there is no `/`. */
  function PathName(path: string): (name: string)
    ensures PathSeparator !in name
    ensures EndsWith(path, name)
    ensures |name| == |path| || path[|path| - |name| - 1] == PathSeparator
  {
    LastSegmentShape(path);
    var segments := Split(path, [PathSeparator]);
    segments[|segments| - 1]
  }

  /** The name of a directory inside `parent` is the child's own name. */
  lemma PathNameOfChild(parent: string, child: string)
    requires PathSeparator !in child
    ensures PathName(parent + [PathSeparator] + child) == child
  {
    var sep := [PathSeparator];
    var front := Split(parent, sep);
    var parts := front + [child];
    SplitPiecesAvoidSeparator(parent, PathSeparator);
    JoinSplit(parent, sep);
    JoinLast(parts, sep);
    assert parts[..|parts| - 1] == front;
    SplitJoin(parts, PathSeparator);
  }

  // ---------------------------------------------------------------------
  // The fields of the name, located by position

  /** The timestamp text: the name up to, not including, its second `_`
      (or to its end when there is only one); absent when the name has no
      `_` at all. */
  function TimestampField(name: string): Option<string> {
    var i := FirstIndex(name, FieldSeparator);
    if i == |name| then None
    else Some(name[..i + 1 + FirstIndex(name[i + 1..], FieldSeparator)])
  }

  /** The macro id: the text between the second and the third `_` (or the
      end of the name), and `unknown` when the name has fewer than two `_`. */
  function MacroIdField(name: string): string {
    var i := FirstIndex(name, FieldSeparator);
    if i == |name| then UnknownMacroId
    else
      var rest := name[i + 1..];
      var j := FirstIndex(rest, FieldSeparator);
      if j == |rest| then UnknownMacroId
      else
        var rest2 := rest[j + 1..];
        rest2[..FirstIndex(rest2, FieldSeparator)]
  }

  /** The timestamp is present exactly when the name holds a `_`; it is then
      a prefix of the name holding exactly one `_`, and it ends where the name
      ends or where a further `_` stands. */
  lemma TimestampFieldShape(name: string)
    ensures TimestampField(name).None? <==> FieldSeparator !in name
    ensures TimestampField(name).Some? ==>
      var ts := TimestampField(name).value;
      && StartsWith(name, ts)
      && (|ts| == |name| || name[|ts|] == FieldSeparator)
      && FirstIndex(ts, FieldSeparator) < |ts|
      && FieldSeparator !in ts[FirstIndex(ts, FieldSeparator) + 1..]
  {
    var i := FirstIndex(name, FieldSeparator);
    FirstIndexSpec(name, FieldSeparator);
    if i < |name| {
      var j := FirstIndex(name[i + 1..], FieldSeparator);
      FirstIndexSpec(name[i + 1..], FieldSeparator);
      var ts := name[..i + 1 + j];
      assert TimestampField(name) == Some(ts);
      assert forall k | 0 <= k < i :: ts[k] == name[k];
      FirstIndexUnique(ts, FieldSeparator, i);
      assert ts[i + 1..] == name[i + 1..][..j];
    }
  }

  /** The macro id holds no `_`. When the name has a second `_`, the macro id
      is the text right after it, up to the end or the next `_`; otherwise it
      is `unknown`. */
  lemma MacroIdFieldShape(name: string)
    ensures FieldSeparator !in MacroIdField(name)
    ensures var ts := TimestampField(name);
      var id := MacroIdField(name);
      if ts.Some? && |ts.value| < |name| then
        && StartsWith(name[|ts.value| + 1..], id)
        && (|ts.value| + 1 + |id| == |name| || name[|ts.value| + 1 + |id|] == FieldSeparator)
      else id == UnknownMacroId
  {
    var i := FirstIndex(name, FieldSeparator);
    if i < |name| {
      var j := FirstIndex(name[i + 1..], FieldSeparator);
      TimestampAt(name, i, j);
      if j < |name[i + 1..]| {
        MacroIdShapeAt(name, i, j);
      }
    }
  }

  /** The timestamp given the first two separator positions. */
  lemma TimestampAt(name: string, i: nat, j: nat)
    requires i == FirstIndex(name, FieldSeparator) < |name|
    requires j == FirstIndex(name[i + 1..], FieldSeparator)
    ensures TimestampField(name) == Some(name[..i + 1 + j])
  {
  }

  /** The macro id given the first two separator positions, when both
      separators exist. */
  lemma MacroIdAt(name: string, i: nat, j: nat)
    requires i == FirstIndex(name, FieldSeparator) < |name|
    requires j == FirstIndex(name[i + 1..], FieldSeparator) < |name[i + 1..]|
    ensures var rest2 := name[i + 1 + j + 1..];
      MacroIdField(name) == rest2[..FirstIndex(rest2, FieldSeparator)]
  {
    DropDrop(name, i + 1, j + 1);
  }

  /** The macro id, when the name has a second `_`, runs from just after it
      up to the end or the next `_`. */
  lemma MacroIdShapeAt(name: string, i: nat, j: nat)
    requires i == FirstIndex(name, FieldSeparator) < |name|
    requires j == FirstIndex(name[i + 1..], FieldSeparator) < |name[i + 1..]|
    ensures var id := MacroIdField(name);
      && FieldSeparator !in id
      && StartsWith(name[i + 1 + j + 1..], id)
      && (i + 1 + j + 1 + |id| == |name| || name[i + 1 + j + 1 + |id|] == FieldSeparator)
  {
    MacroIdAt(name, i, j);
    var rest2 := name[i + 1 + j + 1..];
    var k := FirstIndex(rest2, FieldSeparator);
    FirstIndexSpec(rest2, FieldSeparator);
    assert forall m | 0 <= m < k :: rest2[..k][m] == rest2[m];
    assert k < |rest2| ==> name[i + 1 + j + 1 + k] == rest2[k];
  }

  /** Splitting the name on `_` and picking fields by number finds the same
      timestamp and macro id as locating the separators by position. */
  lemma FieldsAgree(name: string)
    ensures var parts := Split(name, [FieldSeparator]);
      && (|parts| < 2 <==> TimestampField(name).None?)
      && (|parts| >= 2 ==>
            && TimestampField(name) == Some(parts[0] + [FieldSeparator] + parts[1])
            && MacroIdField(name) == (if |parts| > 2 then parts[2] else UnknownMacroId))
  {
    var i := FirstIndex(name, FieldSeparator);
    SplitAtFirstIndex(name, FieldSeparator);
    TimestampFieldShape(name);
    if i < |name| {
      TimestampAgrees(name, i);
      MacroIdAgrees(name, i);
    }
  }

  /** With a first `_` at `i`, the split has at least two pieces and the
      first two, rejoined with `_`, are the timestamp. */
  lemma TimestampAgrees(name: string, i: nat)
    requires i == FirstIndex(name, FieldSeparator) < |name|
    ensures var parts := Split(name, [FieldSeparator]);
      |parts| >= 2 && TimestampField(name) == Some(parts[0] + [FieldSeparator] + parts[1])
  {
    var sep := [FieldSeparator];
    var rest := name[i + 1..];
    var j := FirstIndex(rest, FieldSeparator);
    var parts := Split(name, sep);
    var later := Split(rest, sep);
    SplitAtFirstIndex(name, FieldSeparator);
    assert parts == [name[..i]] + later;
    SplitAtFirstIndex(rest, FieldSeparator);
    assert later[0] == rest[..j];
    assert parts[0] == name[..i] && parts[1] == rest[..j];
    assert TimestampField(name) == Some(name[..i + 1 + j]);
    FirstIndexSpec(name, FieldSeparator);
    PrefixAroundIndex(name, i, j);
  }

  /** With a first `_` at `i`, the third piece of the split, or `unknown`
      when there is none, is the macro id. */
  lemma MacroIdAgrees(name: string, i: nat)
    requires i == FirstIndex(name, FieldSeparator) < |name|
    ensures var parts := Split(name, [FieldSeparator]);
      MacroIdField(name) == (if |parts| > 2 then parts[2] else UnknownMacroId)
  {
    var j := FirstIndex(name[i + 1..], FieldSeparator);
    SplitFieldsAt(name, i, j);
    if j < |name[i + 1..]| {
      MacroIdAt(name, i, j);
    }
  }

  /** The first three pieces of the split name, given the first two
      separator positions. */
  lemma SplitFieldsAt(name: string, i: nat, j: nat)
    requires i == FirstIndex(name, FieldSeparator) < |name|
    requires j == FirstIndex(name[i + 1..], FieldSeparator)
    ensures var parts := Split(name, [FieldSeparator]);
      && |parts| >= 2
      && (j == |name[i + 1..]| ==> |parts| == 2)
      && (j < |name[i + 1..]| ==>
            var rest2 := name[i + 1 + j + 1..];
            |parts| > 2 && parts[2] == rest2[..FirstIndex(rest2, FieldSeparator)])
  {
    var sep := [FieldSeparator];
    var rest := name[i + 1..];
    var later := Split(rest, sep);
    SplitAtFirstIndex(name, FieldSeparator);
    assert Split(name, sep) == [name[..i]] + later;
    SplitAtFirstIndex(rest, FieldSeparator);
    if j < |rest| {
      var rest2 := rest[j + 1..];
      assert rest2 == name[i + 1 + j + 1..];
      SplitAtFirstIndex(rest2, FieldSeparator);
      assert later == [rest[..j]] + Split(rest2, sep);
    }
  }

  // ---------------------------------------------------------------------
  // Step artifacts

  /** A file name matched by the pattern `*.md`. */
  predicate IsMarkdown(fileName: string) {
    EndsWith(fileName, MarkdownSuffix)
  }

  /** The number of `.md` names in a directory listing. */
  function CountMarkdown(names: seq<string>): (n: nat)
    ensures n <= |names|
    ensures n == |names| <==> forall k | 0 <= k < |names| :: IsMarkdown(names[k])
    ensures n == 0 <==> forall k | 0 <= k < |names| :: !IsMarkdown(names[k])
    decreases |names|
  {
    if |names| == 0 then 0
    else
      assert forall k | 0 <= k < |names| - 1 :: names[1..][k] == names[k + 1];
      (if IsMarkdown(names[0]) then 1 else 0) + CountMarkdown(names[1..])
  }

  /** Counting a listing in two parts gives the total count. */
  lemma {:induction false} CountMarkdownAppend(a: seq<string>, b: seq<string>)
    ensures CountMarkdown(a + b) == CountMarkdown(a) + CountMarkdown(b)
    decreases |a|
  {
    if |a| > 0 {
      assert (a + b)[0] == a[0];
      assert (a + b)[1..] == a[1..] + b;
      CountMarkdownAppend(a[1..], b);
    } else {
      assert a + b == b;
    }
  }

  /** The step count of a cycle: the `.md` entries of its `steps/`
      directory, or 0 when that directory does not exist (`None`). */
  function StepCount(stepsDir: Option<seq<string>>): nat {
    match stepsDir
    case None => 0
    case Some(names) => CountMarkdown(names)
  }

  // ---------------------------------------------------------------------
  // The parser

  /** Parses a cycle directory into its summary. `stepsDir` is the listing
      of the directory's `steps/` entry, `None` when there is none;
      `strptime` is the date parser for the timestamp text. */
  function Parse(cyclePath: string, stepsDir: Option<seq<string>>, strptime: string -> Option<DateTime>)
    : (r: Result<CycleInfo, ParseError>)
    ensures var name := PathName(cyclePath);
      r == Failure(MissingTimeField) <==> FieldSeparator !in name
    ensures var name := PathName(cyclePath);
      var ts := TimestampField(name);
      ts.Some? ==>
        match strptime(ts.value)
        case None => r == Failure(BadTimestamp(ts.value))
        case Some(startedAt) =>
          r == Success(CycleInfo(name, MacroIdField(name), startedAt, cyclePath, StepCount(stepsDir)))
  {
    var name := PathName(cyclePath);
    var parts := Split(name, [FieldSeparator]);
    FieldsAgree(name);
    TimestampFieldShape(name);
    if |parts| < 2 then Failure(MissingTimeField)
    else
      var timestamp := parts[0] + [FieldSeparator] + parts[1];
      match strptime(timestamp)
      case None => Failure(BadTimestamp(timestamp))
      case Some(startedAt) =>
        var macroId := if |parts| > 2 then parts[2] else UnknownMacroId;
        Success(CycleInfo(name, macroId, startedAt, cyclePath, StepCount(stepsDir)))
  }

  // ---------------------------------------------------------------------
  // Names built from their fields

  /** The first `c` of `a + c + t` is the one after `a`, when `a` holds
      none. */
  lemma FirstIndexAfterFree(a: string, c: char, t: string)
    requires c !in a
    ensures FirstIndex(a + [c] + t, c) == |a|
  {
    var s := a + [c] + t;
    assert forall j | 0 <= j < |a| :: s[j] == a[j];
    FirstIndexUnique(s, c, |a|);
  }

  /** A name of the form `date_time_macro<tail>`, where no field holds `_`
      and the tail is empty or starts a further field, yields `date_time` as
      its timestamp and `macro` as its macro id. So a suffix after the third
      field never reaches the macro id, and a macro id that itself holds `_`
      is cut at its first `_`. */
  lemma FieldsOfThreeFieldName(date: string, time: string, macro: string, tail: string)
    requires FieldSeparator !in date && FieldSeparator !in time && FieldSeparator !in macro
    requires tail == [] || tail[0] == FieldSeparator
    ensures var name := date + [FieldSeparator] + time + [FieldSeparator] + macro + tail;
      && TimestampField(name) == Some(date + [FieldSeparator] + time)
      && MacroIdField(name) == macro
  {
    var sep := [FieldSeparator];
    var rest2 := macro + tail;
    var rest := time + sep + rest2;
    var name := date + sep + rest;
    assert name == date + [FieldSeparator] + time + [FieldSeparator] + macro + tail;
    SeparatedFields(date, rest);
    SeparatedFields(time, rest2);
    TimestampOfSeparated(name, date, time, rest2);
    MacroIdOfSeparated(name, date, time, macro, tail);
  }

  /** The timestamp of `date_time_<rest>`, once both separators are
      located. */
  lemma TimestampOfSeparated(name: string, date: string, time: string, rest2: string)
    requires name == date + [FieldSeparator] + (time + [FieldSeparator] + rest2)
    requires FirstIndex(name, FieldSeparator) == |date|
    requires FirstIndex(name[|date| + 1..], FieldSeparator) == |time|
    ensures TimestampField(name) == Some(date + [FieldSeparator] + time)
  {
    TimestampAt(name, |date|, |time|);
    assert name[..|date| + 1 + |time|] == date + [FieldSeparator] + time;
  }

  /** The macro id of `date_time_macro<tail>`, once both separators are
      located. */
  lemma MacroIdOfSeparated(name: string, date: string, time: string, macro: string, tail: string)
    requires FieldSeparator !in macro
    requires tail == [] || tail[0] == FieldSeparator
    requires name == date + [FieldSeparator] + (time + [FieldSeparator] + (macro + tail))
    requires FirstIndex(name, FieldSeparator) == |date|
    requires FirstIndex(name[|date| + 1..], FieldSeparator) == |time|
    ensures MacroIdField(name) == macro
  {
    MacroIdAt(name, |date|, |time|);
    assert name[|date| + 1 + |time| + 1..] == macro + tail;
    MacroFieldOfTail(macro, tail);
  }

  /** A macro id that itself holds `_`, such as `my_macro`, is reported only
      up to its first `_`. */
  lemma MacroIdWithSeparatorIsCut(date: string, time: string, first: string, second: string, suffix: string)
    requires FieldSeparator !in date && FieldSeparator !in time && FieldSeparator !in first
    ensures var macroId := first + [FieldSeparator] + second;
      var name := date + [FieldSeparator] + time + [FieldSeparator] + macroId + suffix;
      MacroIdField(name) == first != macroId
  {
    var tail := [FieldSeparator] + second + suffix;
    FieldsOfThreeFieldName(date, time, first, tail);
    var prefix := date + [FieldSeparator] + time + [FieldSeparator];
    assert prefix + (first + [FieldSeparator] + second) + suffix == prefix + first + tail;
  }

  /** Locating the first separator of `head_rest`, with no `_` in `head`. */
  lemma SeparatedFields(head: string, rest: string)
    requires FieldSeparator !in head
    ensures var s := head + [FieldSeparator] + rest;
      FirstIndex(s, FieldSeparator) == |head| && s[|head| + 1..] == rest
  {
    FirstIndexAfterFree(head, FieldSeparator, rest);
    var s := head + [FieldSeparator] + rest;
    assert s[|head| + 1..] == rest;
  }

  /** The macro field ends where the tail begins. */
  lemma MacroFieldOfTail(macro: string, tail: string)
    requires FieldSeparator !in macro
    requires tail == [] || tail[0] == FieldSeparator
    ensures var s := macro + tail;
      FirstIndex(s, FieldSeparator) == |macro| && s[..|macro|] == macro
  {
    var s := macro + tail;
    assert forall j | 0 <= j < |macro| :: s[j] == macro[j];
    FirstIndexUnique(s, FieldSeparator, |macro|);
  }

  /** A name with exactly two fields has the whole name as its timestamp and
      the unknown macro id. */
  lemma FieldsOfTwoFieldName(date: string, time: string)
    requires FieldSeparator !in date && FieldSeparator !in time
    ensures var name := date + [FieldSeparator] + time;
      && TimestampField(name) == Some(name)
      && MacroIdField(name) == UnknownMacroId
  {
    var name := date + [FieldSeparator] + time;
    FirstIndexAfterFree(date, FieldSeparator, time);
    assert name[|date| + 1..] == time;
    FirstIndexUnique(time, FieldSeparator, |time|);
    assert name[..|date| + 1 + |time|] == name;
  }

  /** Parsing a directory `date_time_macro<tail>` inside `parent`, where no
      field holds `_` or `/`, reports the name as the cycle id, `date_time` as
      the timestamp and `macro` as the macro id. */
  lemma ParseThreeFieldChild(parent: string, date: string, time: string, macro: string, tail: string,
                             stepsDir: Option<seq<string>>, strptime: string -> Option<DateTime>)
    requires FieldSeparator !in date && FieldSeparator !in time && FieldSeparator !in macro
    requires tail == [] || tail[0] == FieldSeparator
    requires PathSeparator !in date + [FieldSeparator] + time + [FieldSeparator] + macro + tail
    ensures var name := date + [FieldSeparator] + time + [FieldSeparator] + macro + tail;
      var r := Parse(parent + [PathSeparator] + name, stepsDir, strptime);
      match strptime(date + [FieldSeparator] + time)
      case None => r == Failure(BadTimestamp(date + [FieldSeparator] + time))
      case Some(t) =>
        r == Success(CycleInfo(name, macro, t, parent + [PathSeparator] + name, StepCount(stepsDir)))
  {
    var name := date + [FieldSeparator] + time + [FieldSeparator] + macro + tail;
    FieldsOfThreeFieldName(date, time, macro, tail);
    PathNameOfChild(parent, name);
  }

  /** The documented example: the directory `2025-01-15_14-32-01_fix_abc123`
      has timestamp `2025-01-15_14-32-01` and macro id `fix`, and parsing it
      succeeds exactly when that timestamp parses. */
  lemma DocumentedExample(parent: string, stepsDir: Option<seq<string>>, strptime: string -> Option<DateTime>)
    ensures var r := Parse(parent + "/2025-01-15_14-32-01_fix_abc123", stepsDir, strptime);
      match strptime("2025-01-15_14-32-01")
      case None => r == Failure(BadTimestamp("2025-01-15_14-32-01"))
      case Some(t) =>
        r == Success(CycleInfo("2025-01-15_14-32-01_fix_abc123", "fix", t,
                               parent + "/2025-01-15_14-32-01_fix_abc123", StepCount(stepsDir)))
  {
    var date, time, macro, tail := "2025-01-15", "14-32-01", "fix", "_abc123";
    assert date + [FieldSeparator] + time == "2025-01-15_14-32-01";
    assert date + [FieldSeparator] + time + [FieldSeparator] + macro + tail == "2025-01-15_14-32-01_fix_abc123";
    assert "/2025-01-15_14-32-01_fix_abc123" == [PathSeparator] + "2025-01-15_14-32-01_fix_abc123";
    Associates(parent, [PathSeparator], "2025-01-15_14-32-01_fix_abc123");
    ParseThreeFieldChild(parent, date, time, macro, tail, stepsDir, strptime);
  }
}

=== FILE: macro.dfy ===
/** The macro definition as the preview sees it: an ordered list of steps,
    each either an LLM prompt or a human approval gate. */
module Macros {

  /** One step of a macro. Both variants carry the step id. */
  datatype Step =
    | LlmStep(id: string, prompt: string)
    | GateStep(id: string, message: string)

  /** A loaded macro definition. */
  datatype Macro = Macro(
    macroId: string,
    name: string,
    engine: string,
    steps: seq<Step>,
    includePreviousOutputs: bool
  )
}

=== FILE: preview_macro.dfy ===
/** The macro preview: a non-executing projection of a macro into one entry
    per step, where LLM prompts are rendered with stand-ins for the run input
    and for the outputs of earlier steps. */
module Preview {
  import opened Wrappers
  import opened Text
  import opened Macros
  import opened SeqFacts

  /** The run-input placeholder inside a prompt template. */
  const InputToken: string := "{{INPUT}}"
  /** What the input placeholder shows when no sample input is given. */
  const InputPlaceholder: string := "[← your input will appear here]"
  /** Opening and closing text of a back-reference `{{STEP_OUTPUT:<id>}}`. */
  const RefOpen: string := "{{STEP_OUTPUT:"
  const RefClose: string := "}}"
  /** Start of the marker a back-reference is shown as. */
  const RefMarkerOpen: string := "[← output from: "

  const LlmType: string := "llm"
  const GateType: string := "gate"

  /** The marker shown in place of a back-reference to step `id`. */
  function RefMarker(id: string): string {
    RefMarkerOpen + id + "]"
  }

  /** A character matched by the regular-expression class `\w`, restricted
      to ASCII: letters, digits and the underscore. */
  predicate IsWordChar(c: char) {
    ('a' <= c <= 'z') || ('A' <= c <= 'Z') || ('0' <= c <= '9') || c == '_'
  }

  /** A string matched by `\w+`. */
  predicate IsWordId(id: string) {
    |id| > 0 && forall j | 0 <= j < |id| :: IsWordChar(id[j])
  }

  /** The length of the longest prefix of `s` made of word characters:
      what a greedy `\w*` consumes. */
  function WordRun(s: string): (n: nat)
    ensures n <= |s|
    ensures forall j | 0 <= j < n :: IsWordChar(s[j])
    ensures n < |s| ==> !IsWordChar(s[n])
  {
    if |s| > 0 && IsWordChar(s[0]) then 1 + WordRun(s[1..]) else 0
  }

  /** A back-reference found at the start of a string: the referenced id and
      the number of characters the whole token spans. */
  datatype RefMatch = RefMatch(id: string, length: nat)

  /** The match of `\{\{STEP_OUTPUT:(\w+)\}\}` at the start of `s`, if any.
      The greedy `\w+` takes the longest run of word characters; as `}` is
      not a word character, no shorter run could be followed by `}}`, so
      backtracking never finds another match. */
  function RefAt(s: string): (m: Option<RefMatch>)
    ensures m.Some? ==>
      && IsWordId(m.value.id)
      && m.value.length == |RefOpen| + |m.value.id| + |RefClose| <= |s|
      && s[..m.value.length] == RefOpen + m.value.id + RefClose
  {
    if StartsWith(s, RefOpen) then
      var rest := s[|RefOpen|..];
      var n := WordRun(rest);
      if n > 0 && StartsWith(rest[n..], RefClose) then
        assert s[..|RefOpen| + n + |RefClose|] == s[..|RefOpen|] + rest[..n] + rest[n..][..|RefClose|];
        Some(RefMatch(rest[..n], |RefOpen| + n + |RefClose|))
      else None
    else None
  }

  /** `re.sub` of the back-reference pattern: scanning left to right, every
      match becomes the marker naming its id and scanning resumes after it;
      the marker is not scanned again. */
  function RewriteRefs(s: string): string
    decreases |s|
  {
    if |s| == 0 then []
    else match RefAt(s)
      case Some(m) => RefMarker(m.id) + RewriteRefs(s[m.length..])
      case None => [s[0]] + RewriteRefs(s[1..])
  }

  /** The text the input placeholder is replaced by: the sample input when
      it is present and non-empty (Python truthiness), otherwise the fixed
      placeholder. */
  function InputStandIn(input: Option<string>): string {
    if input.Some? && |input.value| > 0 then input.value else InputPlaceholder
  }

  /** Renders an LLM prompt template for preview: first every input token is
      replaced, then every back-reference is rewritten to its marker. */
  function RenderPreviewPrompt(template: string, input: Option<string>): string {
    RewriteRefs(ReplaceAll(template, InputToken, InputStandIn(input)))
  }

  /** One line of the preview. */
  datatype StepPreview = StepPreview(index: nat, stepId: string, stepType: string, content: string)

  /** The whole preview of a macro. */
  datatype MacroPreview = MacroPreview(
    name: string,
    engine: string,
    steps: seq<StepPreview>,
    includePreviousContext: bool
  )

  /** Entry `e` is the preview of `step` at 1-based position `index`: an LLM
      step shows its rendered prompt, a gate shows its message verbatim. */
  predicate Describes(e: StepPreview, step: Step, index: nat, input: Option<string>) {
    && e.index == index
    && e.stepId == step.id
    && match step
       case LlmStep(_, prompt) => e.stepType == LlmType && e.content == RenderPreviewPrompt(prompt, input)
       case GateStep(_, message) => e.stepType == GateType && e.content == message
  }

  function PreviewStep(step: Step, index: nat, input: Option<string>): StepPreview {
    match step
    case LlmStep(id, prompt) => StepPreview(index, id, LlmType, RenderPreviewPrompt(prompt, input))
    case GateStep(id, message) => StepPreview(index, id, GateType, message)
  }

  /** Previews `steps`, numbering them from `first`. */
  function PreviewSteps(steps: seq<Step>, input: Option<string>, first: nat): (entries: seq<StepPreview>)
    ensures |entries| == |steps|
    ensures forall k | 0 <= k < |steps| :: Describes(entries[k], steps[k], first + k, input)
    decreases |steps|
  {
    if |steps| == 0 then []
    else [PreviewStep(steps[0], first, input)] + PreviewSteps(steps[1..], input, first + 1)
  }

  /** The preview of a macro: its header fields and one entry per step, in
      macro order, numbered from 1. */
  function PreviewMacro(macro: Macro, input: Option<string>): (p: MacroPreview)
    ensures p.name == macro.name && p.engine == macro.engine
    ensures p.includePreviousContext == macro.includePreviousOutputs
    ensures |p.steps| == |macro.steps|
    ensures forall k | 0 <= k < |macro.steps| :: Describes(p.steps[k], macro.steps[k], k + 1, input)
  {
    MacroPreview(macro.name, macro.engine, PreviewSteps(macro.steps, input, 1), macro.includePreviousOutputs)
  }

  // ---------------------------------------------------------------------
  // The back-reference pass

  /** A token with a non-empty word id is recognised, wherever it stands. */
  lemma WellFormedRefRecognised(id: string, rest: string)
    requires IsWordId(id)
    ensures RefAt(RefOpen + id + RefClose + rest) == Some(RefMatch(id, |RefOpen| + |id| + |RefClose|))
  {
    var s := RefOpen + id + RefClose + rest;
    assert s[..|RefOpen|] == RefOpen;
    var after := s[|RefOpen|..];
    assert after == id + RefClose + rest;
    var n := WordRun(after);
    assert forall j | 0 <= j < |id| :: after[j] == id[j];
    assert after[|id|] == '}';
    assert n == |id|;
    assert after[..n] == id;
    assert after[n..] == RefClose + rest;
    assert after[n..][..|RefClose|] == RefClose;
  }

  /** Every back-reference with a word id becomes the marker naming that id,
      and the rest of the text is rewritten independently; nothing checks
      that the id names a real step. */
  lemma RefRewritten(id: string, rest: string)
    requires IsWordId(id)
    ensures RewriteRefs(RefOpen + id + RefClose + rest) == RefMarker(id) + RewriteRefs(rest)
  {
    var s := RefOpen + id + RefClose + rest;
    WellFormedRefRecognised(id, rest);
    assert s[|RefOpen| + |id| + |RefClose|..] == rest;
  }

  /** A back-reference with a word id is rewritten wherever it stands: the
      text before it is rewritten as on its own (no match there reaches into
      the token), the token becomes its marker, and the text after it is
      rewritten on its own. */
  lemma {:induction false} RefRewrittenAnywhere(a: string, id: string, b: string)
    requires IsWordId(id)
    ensures RewriteRefs(a + (RefOpen + id + RefClose + b)) == RewriteRefs(a) + (RefMarker(id) + RewriteRefs(b))
    decreases |a|
  {
    var t := RefOpen + id + RefClose + b;
    var s := a + t;
    if |a| == 0 {
      assert s == t;
      RefRewritten(id, b);
    } else {
      var tail := RefMarker(id) + RewriteRefs(b);
      match RefAt(s)
      case Some(m) =>
        TokenOpensWithBraces(a, t);
        MatchEndsBeforeBraces(s, |a|);
        LeadingMatchOfBoth(a, t, m);
        RefRewrittenAnywhere(a[m.length..], id, b);
        Associates(RefMarker(m.id), RewriteRefs(a[m.length..]), tail);
      case None =>
        LeadingCharOfBoth(a, t);
        RefRewrittenAnywhere(a[1..], id, b);
        ConsAssociates(a[0], RewriteRefs(a[1..]), tail);
    }
  }

  /** A match at the start of `a + t` that lies within `a` is also the
      match at the start of `a`, and the scans of both resume after it. */
  lemma LeadingMatchOfBoth(a: string, t: string, m: RefMatch)
    requires RefAt(a + t) == Some(m) && m.length <= |a|
    ensures 0 < m.length
    ensures RewriteRefs(a + t) == RefMarker(m.id) + RewriteRefs(a[m.length..] + t)
    ensures RewriteRefs(a) == RefMarker(m.id) + RewriteRefs(a[m.length..])
  {
    var s := a + t;
    var l := m.length;
    var rest := a[l..];
    assert a == RefOpen + m.id + RefClose + rest by {
      assert a[..l] == s[..l];
      assert a == a[..l] + rest;
    }
    WellFormedRefRecognised(m.id, rest);
    assert RefAt(a) == Some(m);
    assert s[l..] == rest + t;
  }

  /** Where no match starts at `a + t`, none starts at `a`, and both scans
      copy the first character. */
  lemma LeadingCharOfBoth(a: string, t: string)
    requires |a| > 0 && RefAt(a + t).None?
    ensures RewriteRefs(a + t) == [a[0]] + RewriteRefs(a[1..] + t)
    ensures RewriteRefs(a) == [a[0]] + RewriteRefs(a[1..])
  {
    RefAtExtends(a, t);
    assert (a + t)[1..] == a[1..] + t;
  }

  /** Text that starts with the opening of a back-reference has two opening
      braces where it starts. */
  lemma TokenOpensWithBraces(a: string, t: string)
    requires StartsWith(t, RefOpen)
    ensures var s := a + t;
      |a| + 1 < |s| && s[|a|] == '{' && s[|a| + 1] == '{'
  {
    assert t[0] == RefOpen[0] && t[1] == RefOpen[1];
  }

  /** Inside a back-reference, an opening brace stands only at offsets 0
      and 1. */
  lemma TokenBraces(id: string)
    requires IsWordId(id)
    ensures var token := RefOpen + id + RefClose;
      forall j | 2 <= j < |token| :: token[j] != '{'
  {
    var token := RefOpen + id + RefClose;
    assert forall j | 2 <= j < |RefOpen| :: RefOpen[j] != '{';
    forall j | 2 <= j < |token|
      ensures token[j] != '{'
    {
      if |RefOpen| <= j < |RefOpen| + |id| {
        assert token[j] == id[j - |RefOpen|];
      }
    }
  }

  /** A match at the start ends before two opening braces at a later
      position. */
  lemma MatchEndsBeforeBraces(s: string, k: nat)
    requires 1 <= k && k + 1 < |s| && s[k] == '{' && s[k + 1] == '{'
    ensures RefAt(s).Some? ==> RefAt(s).value.length <= k
  {
    if RefAt(s).Some? {
      var m := RefAt(s).value;
      TokenBraces(m.id);
      var token := RefOpen + m.id + RefClose;
      assert forall j | 2 <= j < m.length :: s[j] == token[j];
    }
  }

  /** A match at the start of a text is still the match once more text
      follows. */
  lemma RefAtExtends(a: string, c: string)
    ensures RefAt(a).Some? ==> RefAt(a + c) == RefAt(a)
  {
    if RefAt(a).Some? {
      var m := RefAt(a).value;
      assert a == RefOpen + m.id + RefClose + a[m.length..];
      assert a + c == RefOpen + m.id + RefClose + (a[m.length..] + c);
      WellFormedRefRecognised(m.id, a[m.length..] + c);
    }
  }

  /** Text without an opening brace passes through the back-reference pass
      unchanged. */
  lemma {:induction false} BraceFreePrefixUnchanged(a: string, b: string)
    requires '{' !in a
    ensures RewriteRefs(a + b) == a + RewriteRefs(b)
    decreases |a|
  {
    if |a| == 0 {
      assert a + b == b;
    } else {
      var c, a' := a[0], a[1..];
      assert a == [c] + a';
      ConsAssociates(c, a', b);
      BraceFreePrefixUnchanged(a', b);
      KeptCharacter(c, a' + b);
      ConsAssociates(c, a', RewriteRefs(b));
    }
  }

  /** A character other than an opening brace is copied by the scan. */
  lemma KeptCharacter(c: char, t: string)
    requires c != '{'
    ensures RewriteRefs([c] + t) == [c] + RewriteRefs(t)
  {
    var s := [c] + t;
    NotBraceNoRef(s);
    assert s[1..] == t;
  }

  /** A back-reference starts with two opening braces. */
  lemma NotBraceNoRef(s: string)
    requires |s| > 0
    ensures s[0] != '{' ==> RefAt(s).None?
    ensures |s| > 1 && s[1] != '{' ==> RefAt(s).None?
  {
    if StartsWith(s, RefOpen) {
      assert s[0] == RefOpen[0] == '{';
      assert s[1] == RefOpen[1] == '{';
    }
  }

  /** A back-reference with an empty or non-word id and no closing brace in
      it does not match. */
  lemma MalformedRefNotRecognised(id: string, rest: string)
    requires '}' !in id
    requires !IsWordId(id)
    ensures RefAt(RefOpen + id + RefClose + rest).None?
  {
    var s := RefOpen + id + RefClose + rest;
    assert s[..|RefOpen|] == RefOpen;
    var after := s[|RefOpen|..];
    assert after == id + RefClose + rest;
    var n := WordRun(after);
    if |id| == 0 {
      assert after[0] == '}';
      assert n == 0;
    } else {
      var j :| 0 <= j < |id| && !IsWordChar(id[j]);
      assert after[j] == id[j];
      assert n <= j;
      assert after[n] == id[n];
      assert after[n..][0] == id[n] != '}';
      assert !StartsWith(after[n..], RefClose);
    }
  }

  /** A back-reference whose id is empty or holds a non-word character (and
      no brace) is not a match and is left exactly as written. */
  lemma MalformedRefUnchanged(id: string, rest: string)
    requires '{' !in id && '}' !in id
    requires !IsWordId(id)
    ensures RewriteRefs(RefOpen + id + RefClose + rest) == RefOpen + id + RefClose + RewriteRefs(rest)
  {
    var head := "STEP_OUTPUT:";
    var tail := head + id + RefClose;
    var token := RefOpen + id + RefClose;
    assert token == "{{" + tail by {
      assert RefOpen == "{{" + head;
    }
    assert '{' !in tail by {
      assert forall j | 0 <= j < |head| :: head[j] != '{';
      forall j | 0 <= j < |tail|
        ensures tail[j] != '{'
      {
        if |head| <= j < |head| + |id| {
          assert tail[j] == id[j - |head|];
        }
      }
    }
    assert tail[0] == 'S';
    MalformedRefNotRecognised(id, rest);
    ConsCons('{', '{', tail + rest);
    Associates("{{", tail, rest);
    TwoBracesCopied(tail + rest);
    BraceFreePrefixUnchanged(tail, rest);
    ConsCons('{', '{', tail + RewriteRefs(rest));
    Associates("{{", tail, RewriteRefs(rest));
  }

  /** A back-reference whose id is empty or holds a non-word character (and
      no brace) is left exactly as written wherever it stands, also after a
      stray `{`: the text before it is rewritten as on its own, and the text
      after it is rewritten on its own. */
  lemma {:induction false} MalformedRefUnchangedAnywhere(a: string, id: string, b: string)
    requires '{' !in id && '}' !in id
    requires !IsWordId(id)
    ensures RewriteRefs(a + (RefOpen + id + RefClose + b)) == RewriteRefs(a) + (RefOpen + id + RefClose + RewriteRefs(b))
    decreases |a|
  {
    var t := RefOpen + id + RefClose + b;
    var s := a + t;
    if |a| == 0 {
      assert s == t;
      MalformedRefUnchanged(id, b);
    } else {
      var tail := RefOpen + id + RefClose + RewriteRefs(b);
      match RefAt(s)
      case Some(m) =>
        TokenOpensWithBraces(a, t);
        MatchEndsBeforeBraces(s, |a|);
        LeadingMatchOfBoth(a, t, m);
        MalformedRefUnchangedAnywhere(a[m.length..], id, b);
        Associates(RefMarker(m.id), RewriteRefs(a[m.length..]), tail);
      case None =>
        LeadingCharOfBoth(a, t);
        MalformedRefUnchangedAnywhere(a[1..], id, b);
        ConsAssociates(a[0], RewriteRefs(a[1..]), tail);
    }
  }

  /** Two opening braces that do not start a back-reference are copied by
      the scan. */
  lemma TwoBracesCopied(t: string)
    requires |t| > 0 && t[0] != '{'
    requires RefAt(['{'] + (['{'] + t)).None?
    ensures RewriteRefs(['{'] + (['{'] + t)) == ['{'] + (['{'] + RewriteRefs(t))
  {
    var s1 := ['{'] + t;
    assert (['{'] + s1)[0] == '{' && (['{'] + s1)[1..] == s1;
    BraceFreeOneStep(['{'] + s1);
    assert s1[0] == '{' && s1[1..] == t;
    NotBraceNoRef(s1);
    BraceFreeOneStep(s1);
  }

  /** One step of the scan over a position where no back-reference starts. */
  lemma BraceFreeOneStep(s: string)
    requires |s| > 0 && RefAt(s).None?
    ensures RewriteRefs(s) == [s[0]] + RewriteRefs(s[1..])
  {
  }

  /** No back-reference anywhere in `s`. */
  predicate NoRefs(s: string) {
    forall i | 0 <= i < |s| :: RefAt(s[i..]).None?
  }

  /** Text with no back-reference passes through unchanged. */
  lemma {:induction false} NoRefsUnchanged(s: string)
    requires NoRefs(s)
    ensures RewriteRefs(s) == s
    decreases |s|
  {
    if |s| > 0 {
      assert RefAt(s[0..]).None?;
      assert s[0..] == s;
      assert NoRefs(s[1..]) by {
        forall i | 0 <= i < |s[1..]|
          ensures RefAt(s[1..][i..]).None?
        {
          assert s[1..][i..] == s[i + 1..];
        }
      }
      NoRefsUnchanged(s[1..]);
    }
  }

  /** A marker holds no opening brace and starts with `[`. */
  lemma MarkerShape(id: string)
    requires IsWordId(id)
    ensures '{' !in RefMarker(id)
    ensures RefMarker(id)[0] == '['
  {
    var m := RefMarker(id);
    assert forall j | 0 <= j < |RefMarkerOpen| :: RefMarkerOpen[j] != '{';
    forall j | 0 <= j < |m|
      ensures m[j] != '{'
    {
      if |RefMarkerOpen| <= j < |RefMarkerOpen| + |id| {
        assert m[j] == id[j - |RefMarkerOpen|];
      }
    }
  }

  /** Any prefix of the rewritten text made only of characters of the input
      token was copied from the text unchanged. */
  lemma {:induction false} RewriteKeepsTokenPrefix(s: string, k: nat)
    requires k <= |RewriteRefs(s)|
    ensures || (k <= |s| && RewriteRefs(s)[..k] == s[..k])
            || exists j | 0 <= j < k :: RewriteRefs(s)[j] !in InputToken
    decreases |s|
  {
    var r := RewriteRefs(s);
    if |s| > 0 && k > 0 {
      match RefAt(s)
      case Some(m) =>
        MarkerShape(m.id);
        assert r[0] == '[';
      case None =>
        var r' := RewriteRefs(s[1..]);
        assert r == [s[0]] + r';
        assert s == [s[0]] + s[1..];
        RewriteKeepsTokenPrefix(s[1..], k - 1);
        KeptPrefixGrows(s[0], s[1..], r', k);
    }
  }

  /** One copied character in front of both texts extends a copied prefix,
      and shifts a foreign character by one. */
  lemma KeptPrefixGrows(c: char, t: string, u: string, k: nat)
    requires 0 < k <= 1 + |u|
    requires || (k - 1 <= |t| && u[..k - 1] == t[..k - 1])
             || exists j | 0 <= j < k - 1 :: u[j] !in InputToken
    ensures || (k <= 1 + |t| && ([c] + u)[..k] == ([c] + t)[..k])
            || exists j | 0 <= j < k :: ([c] + u)[j] !in InputToken
  {
    if k - 1 <= |t| && u[..k - 1] == t[..k - 1] {
      assert ([c] + u)[..k] == [c] + u[..k - 1];
      assert ([c] + t)[..k] == [c] + t[..k - 1];
    } else {
      var j :| 0 <= j < k - 1 && u[j] !in InputToken;
      assert ([c] + u)[j + 1] == u[j];
    }
  }

  /** The back-reference pass creates no input token. */
  lemma {:induction false} RewriteCreatesNoInputToken(s: string)
    requires !Occurs(s, InputToken)
    ensures !Occurs(RewriteRefs(s), InputToken)
    decreases |s|
  {
    if |s| > 0 {
      match RefAt(s)
      case Some(m) =>
        NoOccurrenceInSuffix(s, InputToken, m.length);
        RewriteCreatesNoInputToken(s[m.length..]);
        MarkerShape(m.id);
        NoOccurrenceAfterForeignPrefix(RefMarker(m.id), RewriteRefs(s[m.length..]), InputToken);
      case None =>
        NoOccurrenceInSuffix(s, InputToken, 1);
        RewriteCreatesNoInputToken(s[1..]);
        RewriteStartKept(s);
        NoOccurrenceAfterChar(s[0], RewriteRefs(s[1..]), InputToken);
    }
  }

  /** Where the text does not start with an input token, neither does its
      rewrite. */
  lemma RewriteStartKept(s: string)
    requires !Occurs(s, InputToken)
    ensures !OccursAt(RewriteRefs(s), InputToken, 0)
  {
    var r := RewriteRefs(s);
    var t := InputToken;
    assert !OccursAt(s, t, 0);
    if |t| <= |r| {
      RewriteKeepsTokenPrefix(s, |t|);
      assert forall j | 0 <= j < |t| :: t[j] in t;
    }
  }

  // ---------------------------------------------------------------------
  // Rendering

  /** The input pass replaces every non-overlapping input token by the
      sample input when one is given, and by the placeholder when the input
      is absent or empty; the back-reference pass then runs over the result.
      The template is cut at its input tokens into token-free pieces, and the
      stand-in is put where each token stood. */
  lemma RenderSubstitutesInput(template: string, input: Option<string>)
    ensures var pieces := Split(template, InputToken);
      && template == Join(pieces, InputToken)
      && forall k | 0 <= k < |pieces| :: !Occurs(pieces[k], InputToken)
    ensures input.Some? && |input.value| > 0 ==>
      RenderPreviewPrompt(template, input) == RewriteRefs(Join(Split(template, InputToken), input.value))
    ensures input.None? || input.value == [] ==>
      RenderPreviewPrompt(template, input) == RewriteRefs(Join(Split(template, InputToken), InputPlaceholder))
  {
    ReplaceIsJoinOfSplit(template, InputToken, InputStandIn(input));
    JoinSplit(template, InputToken);
    SplitPiecesAvoidPattern(template, InputToken);
  }

  /** Without a sample input, no input token survives rendering. */
  lemma RenderWithoutInputLeavesNoToken(template: string, input: Option<string>)
    requires input.None? || input.value == []
    ensures !Occurs(RenderPreviewPrompt(template, input), InputToken)
  {
    assert forall j | 0 <= j < |InputPlaceholder| :: InputPlaceholder[j] != '{';
    ReplaceLeavesNoPattern(template, InputToken, InputPlaceholder);
    RewriteCreatesNoInputToken(ReplaceAll(template, InputToken, InputPlaceholder));
  }

  /** A template with neither an input token nor a back-reference is
      rendered as itself, whatever the input. */
  lemma RenderWithoutTokensIsIdentity(template: string, input: Option<string>)
    requires !Occurs(template, InputToken) && NoRefs(template)
    ensures RenderPreviewPrompt(template, input) == template
  {
    ReplaceWithoutOccurrence(template, InputToken, InputStandIn(input));
    NoRefsUnchanged(template);
  }

  /** The input pass runs first: a prompt made of the input token alone
      renders as the back-reference pass applied to the sample input. */
  lemma InputPassRunsFirst(input: string)
    requires |input| > 0
    ensures RenderPreviewPrompt(InputToken, Some(input)) == RewriteRefs(input)
  {
    var standIn := InputStandIn(Some(input));
    assert standIn == input;
    ReplacePatternAlone(InputToken, standIn);
    assert ReplaceAll(InputToken, InputToken, standIn) == input;
  }

  /** So a back-reference supplied inside the sample input is itself shown
      as a marker. */
  lemma RefInsideInputIsRewritten(id: string)
    requires IsWordId(id)
    ensures RenderPreviewPrompt(InputToken, Some(RefOpen + id + RefClose)) == RefMarker(id)
  {
    InputPassRunsFirst(RefOpen + id + RefClose);
    RefRewritten(id, []);
    assert RefOpen + id + RefClose + [] == RefOpen + id + RefClose;
  }
}

=== FILE: seq_facts.dfy ===
/** Identities of sequence concatenation and slicing: associativity,
    prepending one or two elements, splitting a prefix around an index, and
    dropping twice. The string proofs use them as single steps. */
module SeqFacts {

  /** Prepending one element associates with concatenation. */
  lemma ConsAssociates<T>(c: T, x: seq<T>, y: seq<T>)
    ensures [c] + (x + y) == ([c] + x) + y
  {
  }

  /** Prepending two elements one at a time. */
  lemma ConsCons<T>(c: T, d: T, x: seq<T>)
    ensures [c] + ([d] + x) == [c, d] + x
  {
  }

  /** Concatenation is associative. */
  lemma Associates<T>(x: seq<T>, y: seq<T>, z: seq<T>)
    ensures x + (y + z) == (x + y) + z
  {
  }

  /** A prefix that runs past position `i` is the part before `i`, the
      element at `i`, and a prefix of the part after it. */
  lemma PrefixAroundIndex<T>(s: seq<T>, i: nat, j: nat)
    requires i < |s| && i + 1 + j <= |s|
    ensures s[..i + 1 + j] == s[..i] + [s[i]] + s[i + 1..][..j]
  {
  }

  /** Dropping `b` elements after dropping `a` drops `a + b`. */
  lemma DropDrop<T>(s: seq<T>, a: nat, b: nat)
    requires a + b <= |s|
    ensures s[a..][b..] == s[a + b..]
  {
  }
}

=== FILE: text.dfy ===
/** String operations the core relies on, written the way Python's `str`
    methods behave: prefix and suffix tests, occurrence search,
    `str.split(sep)`, `sep.join(parts)` and `str.replace(old, new)`. */
module Text {

  /** `p` is a prefix of `s`. */
  predicate StartsWith(s: string, p: string) {
    |p| <= |s| && s[..|p|] == p
  }

  /** `p` is a suffix of `s`. */
  predicate EndsWith(s: string, p: string) {
    |p| <= |s| && s[|s| - |p|..] == p
  }

  /** `p` occurs in `s` starting at position `i`. */
  predicate OccursAt(s: string, p: string, i: int) {
    0 <= i && i + |p| <= |s| && s[i..i + |p|] == p
  }

  /** `p` occurs somewhere in `s` (Python's `p in s`). */
  predicate Occurs(s: string, p: string) {
    exists i | 0 <= i <= |s| :: OccursAt(s, p, i)
  }

  /** The position of the first `c` in `s`, or `|s|` when there is none
      (Python's `s.find(c)`, with `|s|` in place of -1). */
  function FirstIndex(s: string, c: char): (i: nat)
    ensures i <= |s|
  {
    if |s| == 0 then 0
    else if s[0] == c then 0
    else 1 + FirstIndex(s[1..], c)
  }

  /** `c` does not occur before `FirstIndex(s, c)`, and occurs there unless
      that is the end of `s`. */
  lemma {:induction false} FirstIndexSpec(s: string, c: char)
    ensures forall j | 0 <= j < FirstIndex(s, c) :: s[j] != c
    ensures FirstIndex(s, c) < |s| ==> s[FirstIndex(s, c)] == c
    decreases |s|
  {
    if |s| > 0 && s[0] != c {
      FirstIndexSpec(s[1..], c);
      assert forall j | 1 <= j < FirstIndex(s, c) :: s[j] == s[1..][j - 1];
    }
  }

  /** `FirstIndex` is the only position before which `c` does not occur
      and at which `c` does occur (or the end is reached). */
  lemma {:induction false} FirstIndexUnique(s: string, c: char, i: nat)
    requires i <= |s|
    requires forall j | 0 <= j < i :: s[j] != c
    requires i < |s| ==> s[i] == c
    ensures FirstIndex(s, c) == i
    decreases |s|
  {
    if i > 0 {
      assert s[0] != c;
      assert forall j | 0 <= j < i - 1 :: s[1..][j] == s[j + 1];
      FirstIndexUnique(s[1..], c, i - 1);
    }
  }

  /** Python's `s.split(sep)` for a non-empty separator: the pieces between
      the non-overlapping occurrences of `sep`, found left to right. There is
      always at least one piece. */
  function Split(s: string, sep: string): (parts: seq<string>)
    requires |sep| > 0
    ensures |parts| >= 1
    decreases |s|
  {
    if |s| < |sep| then [s]
    else if s[..|sep|] == sep then [[]] + Split(s[|sep|..], sep)
    else
      var rest := Split(s[1..], sep);
      [[s[0]] + rest[0]] + rest[1..]
  }

  /** Python's `sep.join(parts)`. */
  function Join(parts: seq<string>, sep: string): string
    decreases |parts|
  {
    if |parts| == 0 then []
    else if |parts| == 1 then parts[0]
    else parts[0] + sep + Join(parts[1..], sep)
  }

  /** Python's `s.replace(pat, rep)` for a non-empty pattern: every
      non-overlapping occurrence of `pat`, scanned left to right, becomes
      `rep`; the replacement text is not scanned again. */
  function ReplaceAll(s: string, pat: string, rep: string): string
    requires |pat| > 0
    decreases |s|
  {
    if |s| < |pat| then s
    else if s[..|pat|] == pat then rep + ReplaceAll(s[|pat|..], pat, rep)
    else [s[0]] + ReplaceAll(s[1..], pat, rep)
  }

  /** Joining after prepending a character to the first piece prepends it
      to the join. */
  lemma JoinPushHead(c: char, head: string, tail: seq<string>, sep: string)
    ensures Join([[c] + head] + tail, sep) == [c] + Join([head] + tail, sep)
  {
    if |tail| > 0 {
      assert ([[c] + head] + tail)[1..] == tail;
      assert ([head] + tail)[1..] == tail;
    }
  }

  /** Replacing is splitting on the pattern and joining with the
      replacement: `s.replace(p, r) == r.join(s.split(p))`. */
  lemma {:induction false} ReplaceIsJoinOfSplit(s: string, pat: string, rep: string)
    requires |pat| > 0
    ensures ReplaceAll(s, pat, rep) == Join(Split(s, pat), rep)
    decreases |s|
  {
    if |s| < |pat| {
    } else if s[..|pat|] == pat {
      ReplaceIsJoinOfSplit(s[|pat|..], pat, rep);
      var rest := Split(s[|pat|..], pat);
      assert ([[]] + rest)[1..] == rest;
    } else {
      ReplaceIsJoinOfSplit(s[1..], pat, rep);
      var rest := Split(s[1..], pat);
      assert rest == [rest[0]] + rest[1..];
      JoinPushHead(s[0], rest[0], rest[1..], rep);
    }
  }

  /** Replacing a pattern by itself changes nothing. */
  lemma {:induction false} ReplaceBySelf(s: string, pat: string)
    requires |pat| > 0
    ensures ReplaceAll(s, pat, pat) == s
    decreases |s|
  {
    if |s| < |pat| {
    } else if s[..|pat|] == pat {
      ReplaceBySelf(s[|pat|..], pat);
      assert s == s[..|pat|] + s[|pat|..];
    } else {
      ReplaceBySelf(s[1..], pat);
      assert s == [s[0]] + s[1..];
    }
  }

  /** Joining the pieces of a split with the same separator gives back the
      original string. */
  lemma {:induction false} JoinSplit(s: string, sep: string)
    requires |sep| > 0
    ensures Join(Split(s, sep), sep) == s
  {
    ReplaceIsJoinOfSplit(s, sep, sep);
    ReplaceBySelf(s, sep);
  }

  /** Dropping a prefix cannot create an occurrence. */
  lemma NoOccurrenceInSuffix(s: string, p: string, d: nat)
    requires d <= |s| && !Occurs(s, p)
    ensures !Occurs(s[d..], p)
  {
    forall i | 0 <= i <= |s[d..]|
      ensures !OccursAt(s[d..], p, i)
    {
      assert !OccursAt(s, p, i + d);
      if i + |p| <= |s[d..]| {
        assert s[d..][i..i + |p|] == s[i + d..i + d + |p|];
      }
    }
  }

  /** Putting in front of `b` a text that lacks the pattern's first
      character creates no occurrence. */
  lemma NoOccurrenceAfterForeignPrefix(a: string, b: string, p: string)
    requires |p| > 0 && p[0] !in a && !Occurs(b, p)
    ensures !Occurs(a + b, p)
  {
    var s := a + b;
    forall i | 0 <= i <= |s|
      ensures !OccursAt(s, p, i)
    {
      if i + |p| <= |s| {
        if i < |a| {
          assert s[i..i + |p|][0] == a[i];
        } else {
          assert s[i..i + |p|] == b[i - |a|..i - |a| + |p|];
          assert !OccursAt(b, p, i - |a|);
        }
      }
    }
  }

  /** Putting one character in front of `b` creates no occurrence when the
      pattern does not start right there. */
  lemma NoOccurrenceAfterChar(c: char, b: string, p: string)
    requires !Occurs(b, p) && !OccursAt([c] + b, p, 0)
    ensures !Occurs([c] + b, p)
  {
    var s := [c] + b;
    forall i | 0 <= i <= |s|
      ensures !OccursAt(s, p, i)
    {
      if 0 < i && i + |p| <= |s| {
        assert s[i..i + |p|] == b[i - 1..i - 1 + |p|];
        assert !OccursAt(b, p, i - 1);
      }
    }
  }

  /** The first piece of a split is a prefix of the string. */
  lemma {:induction false} PrefixOfSplit(s: string, sep: string)
    requires |sep| > 0
    ensures StartsWith(s, Split(s, sep)[0])
    decreases |s|
  {
    if |s| >= |sep| && s[..|sep|] != sep {
      PrefixOfSplit(s[1..], sep);
      var first := Split(s[1..], sep)[0];
      assert Split(s, sep)[0] == [s[0]] + first;
      assert s == [s[0]] + s[1..];
    }
  }

  /** No piece of a split contains the separator. */
  lemma {:induction false} SplitPiecesAvoidPattern(s: string, sep: string)
    requires |sep| > 0
    ensures forall k | 0 <= k < |Split(s, sep)| :: !Occurs(Split(s, sep)[k], sep)
    decreases |s|
  {
    var parts := Split(s, sep);
    if |s| < |sep| {
      assert parts == [s];
    } else if s[..|sep|] == sep {
      SplitPiecesAvoidPattern(s[|sep|..], sep);
      var rest := Split(s[|sep|..], sep);
      assert parts == [[]] + rest;
      assert !Occurs([], sep);
      assert forall k | 1 <= k < |parts| :: parts[k] == rest[k - 1];
    } else {
      SplitPiecesAvoidPattern(s[1..], sep);
      PrefixOfSplit(s[1..], sep);
      var rest := Split(s[1..], sep);
      var head := [s[0]] + rest[0];
      assert parts == [head] + rest[1..];
      assert !OccursAt(head, sep, 0) by {
        if |sep| <= |head| {
          assert head[..|sep|] == s[..|sep|];
        }
      }
      NoOccurrenceAfterChar(s[0], rest[0], sep);
      assert forall k | 1 <= k < |parts| :: parts[k] == rest[k];
    }
  }

  /** A string in which the pattern does not occur is returned unchanged. */
  lemma {:induction false} ReplaceWithoutOccurrence(s: string, pat: string, rep: string)
    requires |pat| > 0
    requires !Occurs(s, pat)
    ensures ReplaceAll(s, pat, rep) == s
    decreases |s|
  {
    if |s| >= |pat| {
      assert !OccursAt(s, pat, 0);
      NoOccurrenceInSuffix(s, pat, 1);
      ReplaceWithoutOccurrence(s[1..], pat, rep);
    }
  }

  /** When the replacement starts with a character foreign to the pattern,
      any prefix of the result made only of pattern characters was copied
      from the input unchanged. */
  lemma {:induction false} ReplaceKeepsPatternPrefix(s: string, pat: string, rep: string, k: nat)
    requires |pat| > 0 && |rep| > 0 && rep[0] !in pat
    requires k <= |ReplaceAll(s, pat, rep)|
    ensures || (k <= |s| && ReplaceAll(s, pat, rep)[..k] == s[..k])
            || exists j | 0 <= j < k :: ReplaceAll(s, pat, rep)[j] !in pat
    decreases |s|
  {
    var r := ReplaceAll(s, pat, rep);
    if |s| < |pat| {
    } else if s[..|pat|] == pat {
      if k > 0 {
        assert r[0] == rep[0];
      }
    } else if k > 0 {
      var r' := ReplaceAll(s[1..], pat, rep);
      ReplaceKeepsPatternPrefix(s[1..], pat, rep, k - 1);
      if k - 1 <= |s[1..]| && r'[..k - 1] == s[1..][..k - 1] {
        assert r[..k] == [s[0]] + r'[..k - 1];
        assert s[..k] == [s[0]] + s[1..][..k - 1];
      } else {
        var j :| 0 <= j < k - 1 && r'[j] !in pat;
        assert r[j + 1] == r'[j];
      }
    }
  }

  /** When the replacement is non-empty, starts with a character foreign to
      the pattern, and does not contain the pattern's first character, no
      occurrence of the pattern survives the replacement. */
  lemma {:induction false} ReplaceLeavesNoPattern(s: string, pat: string, rep: string)
    requires |pat| > 0 && |rep| > 0 && rep[0] !in pat && pat[0] !in rep
    ensures !Occurs(ReplaceAll(s, pat, rep), pat)
    decreases |s|
  {
    var r := ReplaceAll(s, pat, rep);
    if |s| < |pat| {
    } else if s[..|pat|] == pat {
      ReplaceLeavesNoPattern(s[|pat|..], pat, rep);
      NoOccurrenceAfterForeignPrefix(rep, ReplaceAll(s[|pat|..], pat, rep), pat);
    } else {
      ReplaceLeavesNoPattern(s[1..], pat, rep);
      if |pat| <= |r| {
        ReplaceKeepsPatternPrefix(s, pat, rep, |pat|);
        assert forall j | 0 <= j < |pat| :: pat[j] in pat;
      }
      NoOccurrenceAfterChar(s[0], ReplaceAll(s[1..], pat, rep), pat);
    }
  }

  /** The pattern alone is replaced by the replacement alone. */
  lemma ReplacePatternAlone(pat: string, rep: string)
    requires |pat| > 0
    ensures ReplaceAll(pat, pat, rep) == rep
  {
    assert pat[..|pat|] == pat;
    assert pat[|pat|..] == [];
    assert ReplaceAll([], pat, rep) == [];
  }

  /** A string free of the separator character splits into itself alone. */
  lemma {:induction false} SplitWithoutSeparator(p: string, c: char)
    requires c !in p
    ensures Split(p, [c]) == [p]
    decreases |p|
  {
    if |p| >= 1 {
      assert p[..1] != [c] by { assert p[0] != c; }
      SplitWithoutSeparator(p[1..], c);
      assert p == [p[0]] + p[1..];
    }
  }

  /** Splitting `p + c + t`, with `c` not in `p`, yields `p` as its first
      piece and the pieces of `t` after it. */
  lemma {:induction false} SplitAfterFirstSeparator(p: string, c: char, t: string)
    requires c !in p
    ensures Split(p + [c] + t, [c]) == [p] + Split(t, [c])
    decreases |p|
  {
    var s := p + [c] + t;
    if |p| == 0 {
      assert s[..1] == [c];
      assert s[1..] == t;
    } else {
      assert s[..1] != [c] by { assert s[0] == p[0] != c; }
      assert s[1..] == p[1..] + [c] + t;
      SplitAfterFirstSeparator(p[1..], c, t);
      assert [p[0]] + p[1..] == p;
    }
  }

  /** The first piece of a single-character split ends at the first
      separator; the remaining pieces are the split of what follows it. */
  lemma SplitAtFirstIndex(s: string, c: char)
    ensures FirstIndex(s, c) == |s| ==> Split(s, [c]) == [s]
    ensures FirstIndex(s, c) < |s| ==>
      Split(s, [c]) == [s[..FirstIndex(s, c)]] + Split(s[FirstIndex(s, c) + 1..], [c])
  {
    var i := FirstIndex(s, c);
    FirstIndexSpec(s, c);
    if i == |s| {
      SplitWithoutSeparator(s, c);
    } else {
      assert s == s[..i] + [c] + s[i + 1..];
      SplitAfterFirstSeparator(s[..i], c, s[i + 1..]);
    }
  }

  /** No piece of a single-character split contains the separator: the
      one-character case of `SplitPiecesAvoidPattern`. */
  lemma {:induction false} SplitPiecesAvoidSeparator(s: string, c: char)
    ensures forall k | 0 <= k < |Split(s, [c])| :: c !in Split(s, [c])[k]
  {
    var parts := Split(s, [c]);
    SplitPiecesAvoidPattern(s, [c]);
    forall k | 0 <= k < |parts|
      ensures c !in parts[k]
    {
      forall j | 0 <= j < |parts[k]|
        ensures parts[k][j] != c
      {
        assert parts[k][j..j + 1] == [parts[k][j]];
        assert !OccursAt(parts[k], [c], j);
      }
    }
  }

  /** Splitting on a character undoes joining with it, provided no piece
      contains that character. */
  lemma {:induction false} SplitJoin(parts: seq<string>, c: char)
    requires |parts| >= 1
    requires forall k | 0 <= k < |parts| :: c !in parts[k]
    ensures Split(Join(parts, [c]), [c]) == parts
    decreases |parts|
  {
    if |parts| == 1 {
      SplitWithoutSeparator(parts[0], c);
    } else {
      SplitJoin(parts[1..], c);
      SplitAfterFirstSeparator(parts[0], c, Join(parts[1..], [c]));
      assert parts == [parts[0]] + parts[1..];
    }
  }

  /** The last piece of a join follows the last separator. */
  lemma {:induction false} JoinLast(parts: seq<string>, sep: string)
    requires |parts| >= 2
    ensures Join(parts, sep) == Join(parts[..|parts| - 1], sep) + sep + parts[|parts| - 1]
    decreases |parts|
  {
    if |parts| > 2 {
      JoinLast(parts[1..], sep);
      assert parts[1..][..|parts| - 2] == parts[..|parts| - 1][1..];
    } else {
      assert parts[..1][0] == parts[0];
    }
  }
}

=== FILE: wrappers.dfy ===
/** The wrappers used by the model: an optional value and a success-or-error
    result. */
module Wrappers {

  /** A value that may be absent (Python's `X | None`). */
  datatype Option<+T> = None | Some(value: T)

  /** Either a computed value or the error that stopped the computation
      (an exception raised by the modelled code). */
  datatype Result<+R, +E> = Success(value: R) | Failure(error: E)
}
